=== FILE: README.md ===
# Client-side session manager of the React/FastAPI template, in Dafny

This project models the authenticated-session manager of the `web/` single-page client.
It covers five parts:

- **Session state.** `AuthProvider` keeps an in-memory token and a `verified` flag. It also keeps the persisted `localStorage` slot `'jwt'`. The mutators are `login`, `logout`, `markVerified` and `invalidate`.
- **Base URLs.** The `http` instance uses `/api` in development and the raw `VITE_API_URL` otherwise. The `api` instance's `buildBaseURL` strips trailing slashes and appends `/api`. `buildUrl` builds the `fetch` targets.
- **Bearer injection.** The request interceptors of both axios instances attach the stored token. `fetchJson` attaches the in-memory token.
- **The 401 handler of `http`.** It refreshes the token, stores it and replays the request. When the refresh fails it clears the slot and redirects.
- **Start-up verification and the render gate** in `App`, and the submit handler of the `Login` page.

Each asynchronous step is one atomic transition. The backend is an oracle: a function from the request as sent to a reply (2xx, 401, another status, or no response). For `http`, the oracle also takes the index of the network call, so the same request can get different answers over time. Storage is a string-to-string map, so every writer can be shown to touch only `'jwt'`. JavaScript truthiness of `string | null` is modelled explicitly (`Credentials.Truthy`): `null` and `""` are falsy.

Modules, one per component, dependencies first:

- `Optional`: `Option`, `ValueOr` (JavaScript's `??`) and `Result`.
- `Credentials`: the storage.
- `AuthContext`: the session.
- `BaseUrl`: the URL builders.
- `Requests`: axios records and the request interceptor.
- `HttpClient`: http.ts, with its 401 handler.
- `Decimal`: status numerals.
- `App`.
- `LoginPage`.

The in-memory token and the stored token are separate fields. They agree after `login`, `logout` and mount. The 401 handler writes storage only, so after a refresh the session in memory still holds the old token (`HttpClient.RefreshAndReplayScenario`).

The `/refresh` call and the replay both go back through the `http` instance's own interceptors, and nothing marks a request as already retried. So `HttpClient.Send` is three mutually recursive functions (`Send`, `OnRejected`, `AfterRefresh`) with explicit fuel, and `Exhausted` stands for a call that has not settled. No retry bound is claimed for it.

## Design versus code

The intended design of this session manager differs from the code in four places. The model follows the code in each.

- `markVerified` is meant to do nothing when there is no token. The code sets `verified` unconditionally (web/src/contexts/AuthContext.tsx:31). `AuthContext.MarkVerifiedWithoutToken` shows the resulting state `{token: none, verified: true}`. The render gate still shows the login view for it. In the model, where each asynchronous step is one atomic transition, `App.AppTransitionsKeepConsistent` shows that the component never creates that state: it calls `markVerified` only after probing a truthy token. The real program can still reach it when two verification probes overlap (see "## Left out").
- A missing or malformed production API URL is meant to be a fatal configuration error at start-up. The code falls back to `''`, so the base becomes `/api` (`BaseUrl.MissingApiUrlIsRelative`). `http` gets an undefined `baseURL`.
- The login call is meant to go out without credentials. The `api` interceptor attaches any token still in storage to it too (`LoginPage.LoginRequestCarriesStoredBearer`).
- A request is meant to be replayed at most once. The code has no such bound; see the finding below.

## Model

| member | source | states |
|---|---|---|
| AuthContext.Init | web/src/contexts/AuthContext.tsx:16-17 | on mount the token is whatever the jwt slot holds (none when the slot is absent), `verified` is false, and storage is untouched |
| AuthContext.InitSynchronised | web/src/contexts/AuthContext.tsx:16-17 | a freshly mounted session agrees with storage and is never in the verified phase |
| AuthContext.Login | web/src/contexts/AuthContext.tsx:19-23 | `login(t)` gives `{token: t, verified: false}`, stores `t` under jwt and leaves every other key alone |
| AuthContext.Logout | web/src/contexts/AuthContext.tsx:25-29 | `logout()` gives `{token: none, verified: false}` and removes the jwt slot from any prior state; no other key changes |
| AuthContext.LogoutIdempotent | web/src/contexts/AuthContext.tsx:25-29 | logging out twice gives the same client as logging out once |
| AuthContext.MarkVerified | web/src/contexts/AuthContext.tsx:31 | `verified` becomes true; token and storage are unchanged; there is no token precondition |
| AuthContext.MarkVerifiedWithoutToken | web/src/contexts/AuthContext.tsx:31 | with no token, `markVerified` still yields `verified = true`, and the session stays anonymous for the render gate |
| AuthContext.MarkVerifiedPromotesPending | web/src/contexts/AuthContext.tsx:31 | a pending session becomes verified and stays in sync with storage |
| AuthContext.Invalidate | web/src/contexts/AuthContext.tsx:32 | `invalidate()` leaves the session anonymous and unverified with the jwt slot removed, and no other key changes |
| AuthContext.InvalidateIsLogout | web/src/contexts/AuthContext.tsx:32 | `invalidate` yields exactly the state `logout` yields, which is anonymous |
| AuthContext.LoginLogoutSynchronise | web/src/contexts/AuthContext.tsx:19-29 | after `login(t)` or `logout()` the in-memory token equals the stored one, and `getStoredToken` returns `t`, respectively nothing |
| Credentials.GetStoredToken | web/src/contexts/AuthContext.tsx:48 | the stored token is present exactly when storage has the jwt key, and it is that key's value |
| Credentials.StoreToken | web/src/contexts/AuthContext.tsx:22 | after writing `t`, reading the jwt slot gives `t`, and no other key changes |
| Credentials.ClearToken | web/src/contexts/AuthContext.tsx:28 | after removal the jwt slot reads as absent, no other key changes, and removing an absent slot changes nothing |
| BaseUrl.HttpBaseURL | web/src/api/http.ts:5 | the `http` base is `/api` in development and the unmodified `VITE_API_URL` (possibly absent) otherwise |
| BaseUrl.HttpAndApiBasesDiffer | web/src/api/http.ts:5 | in production `http` keeps the configured URL, while the `api` base is never equal to it |
| BaseUrl.StripTrailingSlashes | web/src/api/axios.ts:11 | the result is a prefix of the input, does not end in `/`, and only slashes were removed |
| BaseUrl.StripTrailingSlashesUnique | web/src/api/axios.ts:11 | those three properties determine the stripped string: any prefix satisfying them is the result |
| BaseUrl.StripIgnoresAppendedSlashes | web/src/api/axios.ts:11 | appending any number of slashes before stripping changes nothing |
| BaseUrl.BuildBaseURL | web/src/api/axios.ts:9-13 | the base is `/api` in development; in production it is the configured URL (empty when missing) without its trailing slashes, followed by `/api`; it always ends in `/api` and never in `//api` |
| BaseUrl.BuildBaseURLIgnoresTrailingSlashes | web/src/api/axios.ts:11-12 | configuring `u` or `u` followed by any number of slashes yields the same base |
| BaseUrl.MissingApiUrlIsRelative | web/src/api/axios.ts:11-12 | a production build without `VITE_API_URL` gets the base `/api`, with no error |
| BaseUrl.BuildUrl | web/src/App.tsx:19 | in development the target starts with `/api`: it is `e` when `e` already starts with `/api`, and `/api` followed by `e` otherwise; in production it is `__API_URL__` followed by `e` |
| BaseUrl.BuildUrlIdempotentInDev | web/src/App.tsx:19 | in development `buildUrl(buildUrl(e)) == buildUrl(e)` |
| BaseUrl.BuildUrlNotIdempotentInProd | web/src/App.tsx:19 | in production with a non-empty API URL, a second application adds the prefix again |
| Requests.SetHeader | web/src/api/http.ts:13-14 | setting header `k` on a request with or without headers gives `k` the new value and changes nothing else |
| Requests.AttachBearer | web/src/api/http.ts:10-17 | with a truthy stored token `t`, `Authorization` becomes `Bearer t` and no other header or field changes; with null or `""`, the request is returned unchanged |
| Requests.AttachBearerIdempotent | web/src/api/http.ts:10-17 | running the interceptor twice with the same stored token is running it once |
| HttpClient.IsUnauthorized | web/src/api/http.ts:23 | recovery starts exactly when the error carries a response and its status is 401; such a status is never a 2xx status |
| HttpClient.Exchange | web/src/api/http.ts:10-17 | with a truthy stored token the request goes out with `Authorization: Bearer <stored token>` and every other header as it was; with none it goes out unchanged; method, base, url and body are never touched; the reply is the backend's answer to exactly the request sent |
| HttpClient.RefreshConfig | web/src/api/http.ts:25 | the refresh call is a POST to `/refresh` on the instance base, with no body and no headers of its own |
| HttpClient.ReplayConfig | web/src/api/http.ts:27-33 | the replay is the failed request with only `Authorization` replaced by `Bearer` followed by the new token |
| HttpClient.SignOut | web/src/api/http.ts:35-38 | the catch branch removes the jwt slot, keeps every other key and sets the redirect flag |
| HttpClient.Send | web/src/api/http.ts:10-41 | a 2xx reply to the request as sent is handed to the caller as it is, after exactly one call; only a 2xx ever resolves; every call makes at least one network call, writes no key but jwt, and never un-redirects; if it redirects, the call was rejected and the jwt slot is gone |
| HttpClient.OnRejected | web/src/api/http.ts:22-41 | a failure that is not a 401 is rejected as it is, with no write; only a 2xx (from a replay) ever resolves; the handler changes only jwt, and a redirect always comes with a rejection and a cleared slot |
| HttpClient.AfterRefresh | web/src/api/http.ts:25-40 | after the refresh call: only a 2xx replay resolves; nothing but jwt is written; no call is undone; a redirect it adds comes with a rejection and a cleared slot |
| HttpClient.OtherFailuresPassThrough | web/src/api/http.ts:22-40 | a non-2xx reply other than 401, or no response at all, reaches the caller as the error axios raised, and storage is not written |
| HttpClient.RefreshSuccessStoresToken | web/src/api/http.ts:25-34 | on 401 with a successful refresh, the new `access_token` is stored; with a config the result is the replay's; without one the original error is still rejected |
| HttpClient.RefreshFailureSignsOut | web/src/api/http.ts:35-40 | on 401 with a failed refresh, the slot is removed, a redirect happens, the original error is rejected, and re-mounting gives no token and `verified = false` |
| HttpClient.ReplaySentWithNewToken | web/src/api/http.ts:26-33 | the replay passes through the request interceptor unchanged, so the server sees `Bearer` followed by the refreshed token |
| HttpClient.RefreshAndReplayScenario | web/src/api/http.ts:25-33 | a 401, then a refresh granting `xyz`, then a successful replay: the caller gets the replay's response after three calls, storage holds `xyz`, there is no redirect, and the session in memory is out of sync |
| HttpClient.SendFuelMonotone | web/src/api/http.ts:10-41 | a call that settles with some fuel gives the same outcome and the same final storage, redirect flag and call count with any larger fuel |
| HttpClient.OnRejectedFuelMonotone | web/src/api/http.ts:22-41 | the same for the 401 handler: a settled result does not depend on the fuel |
| HttpClient.AfterRefreshFuelMonotone | web/src/api/http.ts:25-40 | the same for the part after the refresh call |
| HttpClient.PersistentUnauthorizedNeverSettles | web/src/api/http.ts:22-41 | with a backend that answers 401 to everything, the call is exhausted for every fuel: the refresh's own 401 re-enters the handler |
| HttpClient.SendGuarded | web/src/api/http.ts:10-41 | the handler with the recursion cut off hands a 2xx reply to the request as sent to the caller as it is, after one call; only a 2xx ever resolves; it always settles, makes between one and three network calls, writes only jwt, and redirects only together with a rejection and a cleared slot |
| HttpClient.OnRejectedGuarded | web/src/api/http.ts:22-41 | the guarded handler passes non-401 failures through as they are, resolves only with a 2xx, and makes at most two further calls (refresh, replay) |
| HttpClient.GuardedRefreshAndReplay | web/src/api/http.ts:25-34 | with the guard, for every backend, a 401 followed by a 2xx refresh granting `t` and a 2xx replay resolves with the replay's response, stores `t`, adds exactly two calls and does not redirect |
| HttpClient.GuardedSecondUnauthorizedSignsOut | web/src/api/http.ts:22-41 | with the guard, for every backend, a refresh that is not 2xx, or a replay answered 401, ends with the jwt slot removed, a redirect, and the original 401 rejected |
| HttpClient.PersistentUnauthorizedSignsOut | web/src/api/http.ts:22-41 | with the guard, a backend that answers 401 to everything costs exactly two calls and ends signed out and redirected, with the 401 rejected |
| App.VerificationProbe | web/src/App.tsx:36-41 | no request is made when the token is falsy or already verified; otherwise one GET of `buildUrl('/api/hello')` with only `Authorization: Bearer` and the token |
| App.Verify | web/src/App.tsx:35-48 | a 2xx answer marks the session verified without touching the token or storage; any other status or a network error yields an anonymous session with the slot cleared; a skipped effect changes nothing |
| App.VerifyResolvesPending | web/src/App.tsx:35-48 | verification never leaves a session pending, and it leaves anonymous and verified sessions exactly as they were |
| App.StartupVerification | web/src/App.tsx:35-48 | on start-up with a stored token, acceptance opens the protected view with storage untouched, and refusal leaves the session anonymous with the slot removed |
| App.AppTransitionsKeepConsistent | web/src/App.tsx:36-45 | mount, login, logout, invalidate and verification all keep `verified` implying a truthy token |
| App.Render | web/src/App.tsx:69 | the protected view renders exactly when the token is truthy and `verified` is true; otherwise `Login` renders |
| App.RenderFollowsPhase | web/src/App.tsx:69 | the protected view is exactly the verified phase, so a pending token grants nothing |
| App.FetchJsonRequest | web/src/App.tsx:51-55 | `Content-Type: application/json` is always set; `Authorization: Bearer` and the token is added only for a truthy token; every other header, the method and the body come from `init`, and the target is `buildUrl(endpoint)` |
| App.StatusMessage | web/src/App.tsx:56 | the thrown message is the status numeral, then the first space, then exactly the status text |
| App.StatusMessageRoundTrip | web/src/App.tsx:56 | the thrown `"status statusText"` message can be read back into the status code and the status text |
| App.FetchJsonResult | web/src/App.tsx:55-57 | `fetchJson` resolves exactly on 2xx, with the body; a network error stays a network error; any other status throws a message whose part before the first space is exactly the printed status and whose rest is exactly the status text |
| App.GreetingRequest | web/src/App.tsx:61-63 | the greeting fetch is issued exactly when `verified` is true, to `buildUrl('/api/hello')`, carrying the token when it is truthy |
| App.GreetingCarriesToken | web/src/App.tsx:61-63 | in a consistent verified session the greeting carries `Bearer` and the session's token |
| App.LoadGreeting | web/src/App.tsx:61-66 | a greeting outcome exists only when verified; it is the `message` of the answer exactly when the answer is 2xx, and otherwise it is the error `fetchJson` throws |
| Decimal.Show | web/src/App.tsx:56 | a status is printed as a non-empty numeral of digits with no leading zero |
| Decimal.ParseShow | web/src/App.tsx:56 | reading the printed numeral gives back the status |
| LoginPage.LoginForm | web/src/pages/Login.tsx:14-16 | the form holds exactly two fields, `username` first with the typed user and `password` second with the typed password; no other name reads back a value |
| LoginPage.LoginRequest | web/src/pages/Login.tsx:17-19 | the login call is a POST to `/token` on the `api` base with a form-urlencoded content type and the form as body; `Authorization` is present exactly when storage holds a truthy token |
| LoginPage.LoginRequestCarriesStoredBearer | web/src/api/axios.ts:17-23 | the `api` interceptor attaches `Bearer` and the stored token to the login call when the token is truthy, and adds nothing otherwise |
| LoginPage.Submit | web/src/pages/Login.tsx:11-24 | a 2xx answer calls `login(access_token)`, giving `{token: access_token, verified: false}` and storing it, with the error line kept; any failure leaves the session as it was and sets "Invalid credentials" |
| LoginPage.SubmitNeverVerifies | web/src/pages/Login.tsx:20 | a successful login never yields a verified session; submitting keeps the session consistent and in sync with storage |
| LoginPage.SubmitThenVerify | web/src/pages/Login.tsx:20 | after a successful login, an accepted probe opens the protected view, a refused one wipes the token, and an empty granted token is never probed, so the login view stays |

## Findings

| source | as written | input that shows it | evidently intended | confidence | as-written member | corrected member |
|---|---|---|---|---|---|---|
| web/src/api/http.ts:22-41 | the `/refresh` call and the replay go through the same 401 handler, and nothing marks a request as retried | a backend that answers 401 to every request, `/refresh` included (for example an expired refresh credential) | at most one refresh and one replay per request; a 401 on the refresh or on the replay ends the session | medium; not executed | HttpClient.PersistentUnauthorizedNeverSettles | HttpClient.SendGuarded |

As written, `/refresh` answering 401 triggers another `/refresh`, and so on. The catch that clears storage and redirects is never reached. `HttpClient.SendGuarded` makes the refresh a single exchange whose own 401 is not handled again, and flags the replay. When the replay is refused with 401 too, the session ends and the caller receives the original 401. `HttpClient.GuardedSecondUnauthorizedSignsOut` proves both terminal cases for every backend. `HttpClient.PersistentUnauthorizedSignsOut` shows that the all-401 backend then costs two calls and ends signed out. No other modelled component calls the `http` instance: `App` uses `fetch` and `Login` uses `api`. So both versions are kept side by side.

## Left out

- React rendering, hook scheduling and effect re-runs, and the async interleaving between effects, interceptors and user actions. Each step is one atomic transition. One interleaving this leaves out produces `{token: null, verified: true}`:
  1. The mount probe for a stored token is in flight while the login page is shown.
  2. The user logs in, and the effect issues a second probe for the new token.
  3. The first probe is refused, and `invalidate()` clears the token.
  4. The second probe is accepted, and `markVerified()` sets `verified`.

  The render gate still shows the login page for that state.
- `useAuth` throwing outside the provider (web/src/contexts/AuthContext.tsx:41-45). This is React context plumbing.
- The axios and `fetch` transport. This includes how axios joins `baseURL` and `url`, `withCredentials` cookies, and the case-insensitivity of header names. Header names are compared exactly.
- `window.location.replace("/")` is a `redirected` flag. The reload that follows is `AuthContext.Init` applied to the resulting storage.
- JSON decoding. A response body is reduced to the two fields the client reads, `access_token` and `message`. A 2xx body without `access_token` is not modelled; JavaScript would store the string `"undefined"` for it. A `res.json()` failure is not modelled either.
- URL encoding of the login form. The body is modelled as its ordered name/value pairs.
- The counter, the prediction button and the prediction display (web/src/App.tsx:87-115). These are rendering. The `fetchJson` they call is modelled.
- HttpClient.Send: the unbounded recursion of the 401 handler is cut by fuel. `Exhausted` marks a call that has not settled within the fuel, so no statement is made about calls that settle only after more nested refreshes than the fuel allows. A call that does settle gives the same result with any larger fuel (`HttpClient.SendFuelMonotone`).
- App.LoadGreeting: the text shown for a network failure is the browser's own error message and is not modelled. Only the fact that it is a transport failure is kept.
- The backend (FastAPI handlers, JWT encoding, bcrypt, database access) and the bundler configuration. The backend is the reply oracle. `VITE_API_URL` and `__API_URL__` are opaque inputs.

=== FILE: app.dfy ===
/** The `App` component: the mount-time verification of a stored token, the
    `fetchJson` helper, the greeting fetch and the render gate. These use `fetch`
    directly, so no axios interceptor (and no refresh) is involved: a 401 during
    verification simply invalidates the session. */
module App {
  import opened Optional
  import opened Credentials
  import opened Requests
  import opened BaseUrl
  import opened AuthContext
  import Decimal

  /** The second argument of `fetch`: method, headers and body, each optional. */
  datatype RequestInit = RequestInit(verb: Option<string>, headers: Headers, body: Option<string>)

  const NoInit: RequestInit := RequestInit(None, map[], None)

  /** A `fetch` call as issued. */
  datatype FetchRequest = FetchRequest(url: string, verb: Option<string>, headers: Headers, body: Option<string>)

  /** What `fetch` resolves to, or the rejection it raises when there is no response. */
  datatype FetchReply = Fetched(status: nat, statusText: string, body: Body) | NetworkError

  /** The backend as seen through `fetch`. */
  type FetchServer = FetchRequest -> FetchReply

  const HelloPath: string := "/api/hello"
  const JsonType: string := "application/json"

  predicate FetchOk(reply: FetchReply) {
    reply.Fetched? && IsSuccess(reply.status)
  }

  /** The verification effect's request, or `None` when the effect returns early
      because the token is falsy or the session is already verified. */
  function VerificationProbe(a: Auth, env: Env): (r: Option<FetchRequest>)
    ensures r.None? <==> !Truthy(a.token) || a.verified
    ensures r.Some? ==> r.value.url == BuildUrl(env, HelloPath)
    ensures r.Some? ==> r.value.headers == map[Authorization := Bearer(a.token.value)]
    ensures r.Some? ==> r.value.verb == None && r.value.body == None
  {
    if !Truthy(a.token) || a.verified then None
    else Some(FetchRequest(BuildUrl(env, HelloPath), None, map[Authorization := Bearer(a.token.value)], None))
  }

  /** The verification effect run to completion: a 2xx answer marks the session
      verified; any other status, or a network error, invalidates it. */
  function Verify(c: Client, env: Env, server: FetchServer): (r: Client)
    ensures !Truthy(c.auth.token) || c.auth.verified ==> r == c
    ensures Truthy(c.auth.token) && !c.auth.verified ==>
              var reply := server(VerificationProbe(c.auth, env).value);
              && (FetchOk(reply) ==> r.auth == Auth(c.auth.token, true) && r.storage == c.storage)
              && (!FetchOk(reply) ==> r.auth == Auth(None, false) && JwtKey !in r.storage && AgreeOffJwt(r.storage, c.storage))
  {
    match VerificationProbe(c.auth, env)
    case None => c
    case Some(probe) => if FetchOk(server(probe)) then MarkVerified(c) else Invalidate(c)
  }

  /** Verification settles a pending session one way or the other and leaves every
      other session alone. */
  lemma VerifyResolvesPending(c: Client, env: Env, server: FetchServer)
    ensures PhaseOf(c.auth) == PendingVerification ==> PhaseOf(Verify(c, env, server).auth) != PendingVerification
    ensures PhaseOf(c.auth) != PendingVerification ==> Verify(c, env, server) == c
  {
  }

  /** The screen the component renders. */
  datatype View = LoginView | ProtectedView

  /** The render gate fails closed: anything short of a truthy, verified token shows
      the login page. */
  function Render(a: Auth): (v: View)
    ensures v == ProtectedView <==> Truthy(a.token) && a.verified
  {
    if !Truthy(a.token) || !a.verified then LoginView else ProtectedView
  }

  /** The protected view is exactly the verified phase: a pending token grants nothing. */
  lemma RenderFollowsPhase(a: Auth)
    ensures Render(a) == ProtectedView <==> PhaseOf(a) == Verified
    ensures PhaseOf(a) == PendingVerification ==> Render(a) == LoginView
  {
  }

  /** The request `fetchJson(endpoint, init)` issues: JSON content type always, the
      in-memory token as `Authorization` when truthy, everything else from `init`. */
  function FetchJsonRequest(token: Option<string>, env: Env, endpoint: string, init: RequestInit): (r: FetchRequest)
    ensures Lookup(r.headers, ContentType) == Some(JsonType)
    ensures Truthy(token) ==> Lookup(r.headers, Authorization) == Some(Bearer(token.value))
    ensures !Truthy(token) ==> Lookup(r.headers, Authorization) == Lookup(init.headers, Authorization)
    ensures forall k :: k != ContentType && k != Authorization ==> Lookup(r.headers, k) == Lookup(init.headers, k)
    ensures r.url == BuildUrl(env, endpoint) && r.verb == init.verb && r.body == init.body
  {
    var withType := init.headers[ContentType := JsonType];
    var headers := if Truthy(token) then withType[Authorization := Bearer(token.value)] else withType;
    FetchRequest(BuildUrl(env, endpoint), init.verb, headers, init.body)
  }

  /** Why `fetchJson` throws: a non-2xx status (with the message it builds), or the
      network rejection `fetch` itself raised. */
  datatype FetchError = StatusError(message: string) | TransportError

  /** The message `fetchJson` throws for a non-2xx response: the status as a decimal
      numeral, one space, then the status text. */
  function StatusMessage(status: nat, statusText: string): (m: string)
    ensures FirstSpace(m) == |Decimal.Show(status)| < |m|
    ensures m[..FirstSpace(m)] == Decimal.Show(status)
    ensures m[FirstSpace(m) + 1..] == statusText
  {
    var digits := Decimal.Show(status);
    var m := digits + " " + statusText;
    assert m[|digits|] == ' ';
    assert forall j :: 0 <= j < |digits| ==> m[j] == digits[j] && Decimal.IsDigit(digits[j]);
    assert FirstSpace(m) == |digits|;
    assert m[..|digits|] == digits;
    assert m[|digits| + 1..] == statusText;
    m
  }

  /** The index of the first space in `s`, or `|s|` when there is none. */
  function FirstSpace(s: string): (i: nat)
    ensures i <= |s|
    ensures forall j :: 0 <= j < i ==> s[j] != ' '
    ensures i < |s| ==> s[i] == ' '
  {
    if |s| == 0 || s[0] == ' ' then 0 else 1 + FirstSpace(s[1..])
  }

  /** Reads a `StatusMessage` back: the numeral before the first space and the text after it. */
  function ParseStatusMessage(m: string): (nat, string) {
    var i := FirstSpace(m);
    (Decimal.Parse(m[..i]), if i < |m| then m[i + 1..] else "")
  }

  /** The thrown message loses nothing: status and status text can be read back. */
  lemma StatusMessageRoundTrip(status: nat, statusText: string)
    ensures ParseStatusMessage(StatusMessage(status, statusText)) == (status, statusText)
  {
    Decimal.ParseShow(status);
  }

  /** What `fetchJson` resolves to or throws. */
  function FetchJsonResult(reply: FetchReply): (r: Result<Body, FetchError>)
    ensures r.Success? <==> FetchOk(reply)
    ensures r.Success? ==> r.value == reply.body
    ensures reply.NetworkError? ==> r == Failure(TransportError)
    ensures reply.Fetched? && !IsSuccess(reply.status) ==>
              && r.Failure? && r.error.StatusError?
              && ParseStatusMessage(r.error.message) == (reply.status, reply.statusText)
              && r.error.message[..FirstSpace(r.error.message)] == Decimal.Show(reply.status)
              && FirstSpace(r.error.message) < |r.error.message|
              && r.error.message[FirstSpace(r.error.message) + 1..] == reply.statusText
  {
    match reply
    case NetworkError => Failure(TransportError)
    case Fetched(status, statusText, body) =>
      if IsSuccess(status) then Success(body)
      else
        StatusMessageRoundTrip(status, statusText);
        Failure(StatusError(StatusMessage(status, statusText)))
  }

  /** The greeting effect's request: issued exactly when `verified` is set. */
  function GreetingRequest(a: Auth, env: Env): (r: Option<FetchRequest>)
    ensures r.Some? <==> a.verified
    ensures r.Some? ==> r.value.url == BuildUrl(env, HelloPath) && r.value.verb == None
    ensures r.Some? && Truthy(a.token) ==> Lookup(r.value.headers, Authorization) == Some(Bearer(a.token.value))
  {
    if a.verified then Some(FetchJsonRequest(a.token, env, HelloPath, NoInit)) else None
  }

  /** The greeting effect run to completion: the message to show, or the error text. */
  function LoadGreeting(a: Auth, env: Env, server: FetchServer): (r: Option<Result<string, FetchError>>)
    ensures r.Some? <==> a.verified
    ensures r.Some? ==> (r.value.Success? <==> FetchOk(server(GreetingRequest(a, env).value)))
    ensures r.Some? && r.value.Failure? ==> r.value.error == FetchJsonResult(server(GreetingRequest(a, env).value)).error
    ensures r.Some? && r.value.Success? ==> r.value.value == server(GreetingRequest(a, env).value).body.message
  {
    match GreetingRequest(a, env)
    case None => None
    case Some(req) =>
      match FetchJsonResult(server(req))
      case Success(body) => Some(Success(body.message))
      case Failure(e) => Some(Failure(e))
  }

  /** A session in which `verified` implies a truthy token: `markVerified` alone does
      not keep this, but the component only calls it after probing a truthy token. */
  predicate Consistent(a: Auth) {
    a.verified ==> Truthy(a.token)
  }

  /** Every transition the application drives keeps the session consistent. */
  lemma AppTransitionsKeepConsistent(c: Client, env: Env, server: FetchServer, st: Storage, t: string)
    ensures Consistent(Init(st).auth)
    ensures Consistent(Login(c, t).auth) && Consistent(Logout(c).auth) && Consistent(Invalidate(c).auth)
    ensures Consistent(c.auth) ==> Consistent(Verify(c, env, server).auth)
  {
  }

  /** Consistency matters: once verified, the greeting carries the session's token. */
  lemma GreetingCarriesToken(a: Auth, env: Env)
    requires Consistent(a) && a.verified
    ensures Lookup(GreetingRequest(a, env).value.headers, Authorization) == Some(Bearer(a.token.value))
  {
  }

  /** On start-up with a stored token, a backend that refuses it leaves the session
      anonymous with the slot cleared; one that accepts it opens the protected view. */
  lemma StartupVerification(st: Storage, env: Env, server: FetchServer)
    requires Truthy(GetStoredToken(st))
    ensures var probe := VerificationProbe(Init(st).auth, env).value;
            var after := Verify(Init(st), env, server);
            && (FetchOk(server(probe)) ==> Render(after.auth) == ProtectedView && after.storage == st)
            && (!FetchOk(server(probe)) ==> PhaseOf(after.auth) == Anonymous && JwtKey !in after.storage)
  {
  }
}

=== FILE: auth_context.dfy ===
/** The session state held by `AuthProvider`: the in-memory token and the
    `verified` flag, next to the persisted jwt slot. The two tokens are kept
    apart on purpose: they agree after `login` and `logout`, but the 401
    handler writes storage without touching the in-memory session. */
module AuthContext {
  import opened Optional
  import opened Credentials

  /** What the rendering layer reads: `{ token, verified }`. */
  datatype Auth = Auth(token: Option<string>, verified: bool)

  /** The provider's state together with the browser storage it writes. */
  datatype Client = Client(auth: Auth, storage: Storage)

  /** The rendering layer's three views of a session, as the render gate sees them. */
  datatype Phase = Anonymous | PendingVerification | Verified

  function PhaseOf(a: Auth): (p: Phase)
    ensures p == Verified <==> Truthy(a.token) && a.verified
    ensures p == Anonymous <==> !Truthy(a.token)
  {
    if !Truthy(a.token) then Anonymous
    else if a.verified then Verified
    else PendingVerification
  }

  /** The in-memory token is the one persisted in the jwt slot. */
  predicate InSync(c: Client) {
    c.auth.token == GetStoredToken(c.storage)
  }

  /** Mounting `AuthProvider`: the token is read from storage, nothing is verified yet. */
  function Init(st: Storage): (c: Client)
    ensures c.auth.token.Some? <==> JwtKey in st
    ensures c.auth.token.Some? ==> c.auth.token.value == st[JwtKey]
    ensures !c.auth.verified
    ensures c.storage == st
  {
    Client(Auth(GetStoredToken(st), false), st)
  }

  /** `login(t)`: adopt the token, persist it, and require a fresh server check. */
  function Login(c: Client, t: string): (r: Client)
    ensures r.auth == Auth(Some(t), false)
    ensures GetStoredToken(r.storage) == Some(t)
    ensures AgreeOffJwt(r.storage, c.storage)
  {
    Client(Auth(Some(t), false), StoreToken(c.storage, t))
  }

  /** `logout()`: forget the token in memory and in storage, whatever the prior state. */
  function Logout(c: Client): (r: Client)
    ensures r.auth == Auth(None, false)
    ensures JwtKey !in r.storage
    ensures AgreeOffJwt(r.storage, c.storage)
  {
    Client(Auth(None, false), ClearToken(c.storage))
  }

  /** `markVerified()`: sets the flag unconditionally; the code has no token check. */
  function MarkVerified(c: Client): (r: Client)
    ensures r.auth.verified
    ensures r.auth.token == c.auth.token
    ensures r.storage == c.storage
  {
    c.(auth := c.auth.(verified := true))
  }

  /** `invalidate()`: the verification failure path, delegating to `logout()`. */
  function Invalidate(c: Client): (r: Client)
    ensures PhaseOf(r.auth) == Anonymous && !r.auth.verified
    ensures GetStoredToken(r.storage) == None && AgreeOffJwt(r.storage, c.storage)
  {
    Logout(c)
  }

  /** Logging out twice is the same as logging out once. */
  lemma LogoutIdempotent(c: Client)
    ensures Logout(Logout(c)) == Logout(c)
  {
    assert ClearToken(ClearToken(c.storage)) == ClearToken(c.storage);
  }

  /** `invalidate` and `logout` cannot be told apart by their effect. */
  lemma InvalidateIsLogout(c: Client)
    ensures Invalidate(c) == Logout(c)
    ensures PhaseOf(Invalidate(c).auth) == Anonymous
  {
  }

  /** After `login` or `logout` memory and storage agree, and `getStoredToken`
      reports the in-memory token. */
  lemma LoginLogoutSynchronise(c: Client, t: string)
    ensures InSync(Login(c, t)) && GetStoredToken(Login(c, t).storage) == Some(t)
    ensures InSync(Logout(c)) && GetStoredToken(Logout(c).storage) == None
  {
  }

  /** A freshly mounted provider is in sync with storage and not verified. */
  lemma InitSynchronised(st: Storage)
    ensures InSync(Init(st))
    ensures PhaseOf(Init(st).auth) != Verified
  {
  }

  /** `markVerified` without a token sets `verified` anyway: the flag alone does not
      mean a token is present. The render gate still reports the session as anonymous. */
  lemma MarkVerifiedWithoutToken(st: Storage)
    requires JwtKey !in st
    ensures MarkVerified(Init(st)).auth == Auth(None, true)
    ensures PhaseOf(MarkVerified(Init(st)).auth) == Anonymous
  {
  }

  /** `markVerified` moves a pending session to verified and keeps it in sync. */
  lemma MarkVerifiedPromotesPending(c: Client)
    requires PhaseOf(c.auth) == PendingVerification
    ensures PhaseOf(MarkVerified(c).auth) == Verified
    ensures InSync(c) ==> InSync(MarkVerified(c))
  {
  }
}

=== FILE: base_url.dfy ===
/** Where requests go: the three base-URL and request-target builders of the web
    client. `DEV` selects the development proxy; in production the URL comes from
    the build environment (`VITE_API_URL` for the axios instances, the
    `__API_URL__` define for `fetch`), taken as an opaque string. */
module BaseUrl {
  import opened Optional

  /** Build-time configuration read by the builders. */
  datatype Env = Env(dev: bool, viteApiUrl: Option<string>, apiUrl: string)

  /** The development proxy prefix. */
  const ApiPrefix: string := "/api"

  predicate StartsWith(s: string, p: string) {
    |p| <= |s| && s[..|p|] == p
  }

  predicate EndsWith(s: string, q: string) {
    |q| <= |s| && s[|s| - |q|..] == q
  }

  predicate AllSlashes(s: string) {
    forall i :: 0 <= i < |s| ==> s[i] == '/'
  }

  predicate EndsWithSlash(s: string) {
    |s| > 0 && s[|s| - 1] == '/'
  }

  /** `n` slash characters. */
  function Slashes(n: nat): (r: string)
    ensures |r| == n && AllSlashes(r)
  {
    seq(n, _ => '/')
  }

  /** The configured URL with its whole run of trailing slashes removed. */
  function StripTrailingSlashes(s: string): (r: string)
    ensures StartsWith(s, r)
    ensures !EndsWithSlash(r)
    ensures AllSlashes(s[|r|..])
  {
    if EndsWithSlash(s) then StripTrailingSlashes(s[..|s| - 1]) else s
  }

  /** The three properties of `StripTrailingSlashes` determine its result: it is the
      one prefix of `s` that does not end in a slash and leaves only slashes behind. */
  lemma StripTrailingSlashesUnique(s: string, p: string)
    requires StartsWith(s, p) && !EndsWithSlash(p) && AllSlashes(s[|p|..])
    ensures p == StripTrailingSlashes(s)
  {
  }

  /** Appending any number of slashes to a URL does not change what stripping yields. */
  lemma StripIgnoresAppendedSlashes(s: string, n: nat)
    ensures StripTrailingSlashes(s + Slashes(n)) == StripTrailingSlashes(s)
  {
    var r := StripTrailingSlashes(s);
    var t := s + Slashes(n);
    assert t[..|s|] == s;
    assert t[..|r|] == s[..|r|];
    forall i | 0 <= i < |t[|r|..]|
      ensures t[|r|..][i] == '/'
    {
      if |r| + i < |s| {
        assert t[|r|..][i] == s[|r|..][i];
      } else {
        assert t[|r|..][i] == Slashes(n)[|r| + i - |s|];
      }
    }
    StripTrailingSlashesUnique(t, r);
  }

  /** `buildBaseURL()` in axios.ts: the base of the `api` instance. */
  function BuildBaseURL(env: Env): (r: string)
    ensures EndsWith(r, ApiPrefix) && !EndsWith(r, "/" + ApiPrefix)
    ensures env.dev ==> r == ApiPrefix
    ensures !env.dev ==>
      var u := ValueOr(env.viteApiUrl, "");
      var p := r[..|r| - |ApiPrefix|];
      StartsWith(u, p) && !EndsWithSlash(p) && AllSlashes(u[|p|..])
  {
    if env.dev then ApiPrefix
    else
      var raw := StripTrailingSlashes(ValueOr(env.viteApiUrl, ""));
      var r := raw + ApiPrefix;
      assert r[..|r| - |ApiPrefix|] == raw;
      assert r[|r| - |ApiPrefix|..] == ApiPrefix;
      r
  }

  /** Trailing slashes on the configured URL never reach the base. */
  lemma BuildBaseURLIgnoresTrailingSlashes(env: Env, u: string, n: nat)
    ensures BuildBaseURL(env.(viteApiUrl := Some(u + Slashes(n))))
         == BuildBaseURL(env.(viteApiUrl := Some(u)))
  {
    StripIgnoresAppendedSlashes(u, n);
  }

  /** A production build without `VITE_API_URL` silently targets the relative `/api`:
      there is no configuration error. */
  lemma MissingApiUrlIsRelative(env: Env)
    requires !env.dev && env.viteApiUrl == None
    ensures BuildBaseURL(env) == ApiPrefix
  {
  }

  /** The `http` instance's `baseURL` in http.ts: the raw setting in production. */
  function HttpBaseURL(env: Env): (r: Option<string>)
    ensures env.dev ==> r == Some(ApiPrefix)
    ensures !env.dev ==> r == env.viteApiUrl
  {
    if env.dev then Some(ApiPrefix) else env.viteApiUrl
  }

  /** The two axios instances share a base in development but not in production,
      where `http` keeps the configured URL as is (slashes and all, no `/api`). */
  lemma HttpAndApiBasesDiffer(env: Env, u: string)
    requires !env.dev && env.viteApiUrl == Some(u)
    ensures HttpBaseURL(env) == Some(u)
    ensures BuildBaseURL(env) != u
  {
  }

  /** `buildUrl(e)` in App.tsx: the target of a `fetch` call. */
  function BuildUrl(env: Env, e: string): (r: string)
    ensures env.dev ==> StartsWith(r, ApiPrefix)
    ensures env.dev && StartsWith(e, ApiPrefix) ==> r == e
    ensures env.dev && !StartsWith(e, ApiPrefix) ==> r[..|ApiPrefix|] == ApiPrefix && r[|ApiPrefix|..] == e
    ensures !env.dev ==> StartsWith(r, env.apiUrl) && r[|env.apiUrl|..] == e
  {
    if env.dev then
      if StartsWith(e, ApiPrefix) then e else ApiPrefix + e
    else env.apiUrl + e
  }

  /** In development, building twice is building once. */
  lemma BuildUrlIdempotentInDev(env: Env, e: string)
    requires env.dev
    ensures BuildUrl(env, BuildUrl(env, e)) == BuildUrl(env, e)
  {
  }

  /** In production the prefix is added unconditionally, so a non-empty API URL is
      added again on every application. */
  lemma BuildUrlNotIdempotentInProd(env: Env, e: string)
    requires !env.dev && env.apiUrl != ""
    ensures BuildUrl(env, BuildUrl(env, e)) != BuildUrl(env, e)
  {
    assert |BuildUrl(env, BuildUrl(env, e))| == |env.apiUrl| + |BuildUrl(env, e)|;
  }
}

=== FILE: credentials.dfy ===
/** The credential store: the browser's `localStorage`, of which the session
    manager uses the single slot `'jwt'`. Storage is a string-to-string map so
    that "only the jwt slot changes" can be stated about every writer. */
module Credentials {
  import opened Optional

  type Storage = map<string, string>

  /** The one well-known key under which the access token persists. */
  const JwtKey: string := "jwt"

  /** Reading key `k`: the stored string, or null when the key is absent. */
  function Lookup(st: Storage, k: string): (r: Option<string>)
    ensures r.Some? <==> k in st
    ensures r.Some? ==> r.value == st[k]
  {
    if k in st then Some(st[k]) else None
  }

  /** `getStoredToken()`: the current content of the jwt slot, read afresh on every call. */
  function GetStoredToken(st: Storage): (r: Option<string>)
    ensures r.Some? <==> JwtKey in st
    ensures r.Some? ==> r.value == st[JwtKey]
  {
    Lookup(st, JwtKey)
  }

  /** Writing token `t` into the jwt slot. */
  function StoreToken(st: Storage, t: string): (r: Storage)
    ensures GetStoredToken(r) == Some(t)
    ensures AgreeOffJwt(r, st)
  {
    st[JwtKey := t]
  }

  /** Removing the jwt slot; removing an absent key is allowed and changes nothing. */
  function ClearToken(st: Storage): (r: Storage)
    ensures GetStoredToken(r) == None
    ensures AgreeOffJwt(r, st)
    ensures JwtKey !in st ==> r == st
  {
    st - {JwtKey}
  }

  /** The two storages hold the same value (or both nothing) under every key but `'jwt'`. */
  ghost predicate AgreeOffJwt(a: Storage, b: Storage) {
    forall k :: k != JwtKey ==> Lookup(a, k) == Lookup(b, k)
  }

  /** JavaScript truthiness of `string | null`: null and the empty string are falsy. */
  predicate Truthy(t: Option<string>) {
    t.Some? && t.value != ""
  }
}

=== FILE: decimal.dfy ===
/** Decimal rendering of HTTP status codes, as JavaScript prints a number inside a
    string, with the parser that reads it back. */
module Decimal {

  predicate IsDigit(c: char) {
    '0' <= c <= '9'
  }

  predicate AllDigits(s: string) {
    forall i :: 0 <= i < |s| ==> IsDigit(s[i])
  }

  function DigitChar(d: nat): (c: char)
    requires d < 10
    ensures IsDigit(c)
  {
    ('0' as int + d) as char
  }

  function DigitValue(c: char): (d: nat)
    ensures d < 10
    ensures IsDigit(c) ==> DigitChar(d) == c
  {
    if IsDigit(c) then c as int - '0' as int else 0
  }

  /** The shortest decimal numeral of `n`. */
  function Show(n: nat): (s: string)
    ensures |s| >= 1 && AllDigits(s)
    ensures |s| > 1 ==> s[0] != '0'
  {
    if n < 10 then [DigitChar(n)] else Show(n / 10) + [DigitChar(n % 10)]
  }

  /** Reads a numeral most-significant digit first. */
  function Parse(s: string): nat {
    if |s| == 0 then 0 else Parse(s[..|s| - 1]) * 10 + DigitValue(s[|s| - 1])
  }

  lemma {:induction false} ParseShow(n: nat)
    ensures Parse(Show(n)) == n
  {
    if n < 10 {
      assert Show(n)[..0] == [];
    } else {
      var s := Show(n);
      assert s[..|s| - 1] == Show(n / 10);
      ParseShow(n / 10);
    }
  }
}

=== FILE: http_client.dfy ===
/** The `http` axios instance of http.ts: every call passes through the request
    interceptor (attach the stored token) and, when it fails, through the response
    interceptor, which answers a 401 by calling `/refresh`, storing the new token
    and replaying the original request, or by clearing storage and redirecting
    when the refresh fails.

    The backend is an oracle that answers the n-th network call. Both the
    `/refresh` call and the replay go back through the same interceptors, so
    nothing bounds the recursion: `Send` carries explicit fuel and reports
    `Exhausted` when it runs out, which stands for a call that has not settled.
    `SendGuarded` is the same handler with the recursion cut off: at most one
    refresh and one replay per request. */
module HttpClient {
  import opened Optional
  import opened Credentials
  import opened Requests
  import AuthContext

  /** The reply the backend gives to the n-th network call, for the request as sent. */
  type Server = (nat, Config) -> Reply

  /** An `AxiosError`: the request that failed (when known) and the response (when any). */
  datatype HttpError = HttpError(config: Option<Config>, response: Option<Response>)

  /** How a call through the instance settles, or `Exhausted` when fuel ran out first. */
  datatype Outcome = Resolved(response: Response) | Rejected(error: HttpError) | Exhausted

  /** What a call changes outside itself: storage, whether the page was sent back to
      the root URL, and how many network calls have been made. */
  datatype World = World(storage: Storage, redirected: bool, calls: nat)

  datatype Run = Run(outcome: Outcome, world: World)

  const RefreshPath: string := "/refresh"

  /** The error carries a response, and its status is 401. Such an error is never a
      success, so a call that resolved never enters recovery. */
  function IsUnauthorized(err: HttpError): (b: bool)
    ensures b <==> err.response.Some? && err.response.value.status == Unauthorized
    ensures b ==> !IsSuccess(err.response.value.status)
  {
    err.response.Some? && err.response.value.status == Unauthorized
  }

  /** The refresh call posted on the instance, before the interceptor runs: no body,
      no headers of its own. */
  function RefreshConfig(base: Option<string>): (r: Config)
    ensures r.verb == "POST" && r.url == RefreshPath && r.baseURL == base
    ensures r.headers == None && r.body == NoBody
  {
    Config("POST", base, RefreshPath, None, NoBody)
  }

  /** The replayed request: the failed request with only `Authorization` replaced. */
  function ReplayConfig(c: Config, t: string): (r: Config)
    ensures HeaderOf(r, Authorization) == Some(Bearer(t))
    ensures forall k :: k != Authorization ==> HeaderOf(r, k) == HeaderOf(c, k)
    ensures r.verb == c.verb && r.baseURL == c.baseURL && r.url == c.url && r.body == c.body
  {
    SetHeader(c, Authorization, Bearer(t))
  }

  /** The catch branch: the jwt slot is removed and the page is sent to `/`. */
  function SignOut(w: World): (r: World)
    ensures JwtKey !in r.storage && AgreeOffJwt(r.storage, w.storage)
    ensures r.redirected && r.calls == w.calls
  {
    w.(storage := ClearToken(w.storage), redirected := true)
  }

  /** One network call: the interceptor attaches the token stored at this moment and
      the backend answers; returns the request as sent and the reply. */
  function Exchange(cfg: Config, w: World, server: Server): (r: (Config, Reply))
    ensures Truthy(GetStoredToken(w.storage)) ==> HeaderOf(r.0, Authorization) == Some(Bearer(w.storage[JwtKey]))
    ensures Truthy(GetStoredToken(w.storage)) ==> forall k :: k != Authorization ==> HeaderOf(r.0, k) == HeaderOf(cfg, k)
    ensures !Truthy(GetStoredToken(w.storage)) ==> r.0 == cfg
    ensures r.0.verb == cfg.verb && r.0.baseURL == cfg.baseURL && r.0.url == cfg.url && r.0.body == cfg.body
    ensures r.1 == server(w.calls, r.0)
  {
    var sent := AttachBearer(cfg, GetStoredToken(w.storage));
    (sent, server(w.calls, sent))
  }

  /** The error axios raises for a reply outside 2xx. */
  function ErrorOf(sent: Config, reply: Reply): (e: HttpError)
    ensures e.config == Some(sent)
    ensures e.response.Some? <==> reply.Answered?
    ensures reply.Answered? ==> e.response.value == reply.response
  {
    HttpError(Some(sent), if reply.Answered? then Some(reply.response) else None)
  }

  /** A call through the instance, as the code is written. A 2xx reply is handed to the
      caller as it is; nothing else ever resolves. */
  function Send(base: Option<string>, cfg: Config, w: World, server: Server, fuel: nat): (r: Run)
    ensures var sent := AttachBearer(cfg, GetStoredToken(w.storage));
            Succeeded(server(w.calls, sent)) ==>
              r == Run(Resolved(server(w.calls, sent).response), w.(calls := w.calls + 1))
    ensures r.outcome.Resolved? ==> IsSuccess(r.outcome.response.status)
    ensures r.world.calls > w.calls
    ensures AgreeOffJwt(r.world.storage, w.storage)
    ensures w.redirected ==> r.world.redirected
    ensures !w.redirected && r.world.redirected ==> r.outcome.Rejected? && JwtKey !in r.world.storage
    decreases fuel, 1
  {
    var (sent, reply) := Exchange(cfg, w, server);
    var w1 := w.(calls := w.calls + 1);
    if Succeeded(reply) then Run(Resolved(reply.response), w1)
    else OnRejected(base, ErrorOf(sent, reply), w1, server, fuel)
  }

  /** The response interceptor's error handler, as the code is written. A failed
      refresh is caught; a failed replay is not (it is returned, not awaited), so it
      reaches the caller as it is. */
  function OnRejected(base: Option<string>, err: HttpError, w: World, server: Server, fuel: nat): (r: Run)
    ensures !IsUnauthorized(err) ==> r == Run(Rejected(err), w)
    ensures r.outcome.Resolved? ==> IsSuccess(r.outcome.response.status)
    ensures r.world.calls >= w.calls
    ensures AgreeOffJwt(r.world.storage, w.storage)
    ensures w.redirected ==> r.world.redirected
    ensures !w.redirected && r.world.redirected ==> r.outcome.Rejected? && JwtKey !in r.world.storage
    decreases fuel, 0
  {
    if !IsUnauthorized(err) then Run(Rejected(err), w)
    else if fuel == 0 then Run(Exhausted, w)
    else AfterRefresh(base, err, Send(base, RefreshConfig(base), w, server, fuel - 1), server, fuel - 1)
  }

  /** What the 401 handler does once the refresh call has settled: a rejected refresh
      signs out and rejects the original error; a resolved one stores the new token and
      replays the failed request (or rejects the error when it has none). */
  function AfterRefresh(base: Option<string>, err: HttpError, refresh: Run, server: Server, fuel: nat): (r: Run)
    ensures r.outcome.Resolved? ==> IsSuccess(r.outcome.response.status)
    ensures r.world.calls >= refresh.world.calls
    ensures AgreeOffJwt(r.world.storage, refresh.world.storage)
    ensures refresh.world.redirected ==> r.world.redirected
    ensures !refresh.world.redirected && r.world.redirected ==> r.outcome.Rejected? && JwtKey !in r.world.storage
    decreases fuel, 2
  {
    match refresh.outcome
    case Exhausted => refresh
    case Rejected(_) => Run(Rejected(err), SignOut(refresh.world))
    case Resolved(resp) =>
      var t := resp.body.accessToken;
      var w2 := refresh.world.(storage := StoreToken(refresh.world.storage, t));
      match err.config
      case Some(c) => Send(base, ReplayConfig(c, t), w2, server, fuel)
      case None => Run(Rejected(err), w2)
  }

  /** A failure other than 401, with or without a response, reaches the caller as it
      is, and nothing is written to storage. */
  lemma OtherFailuresPassThrough(base: Option<string>, cfg: Config, w: World, server: Server, fuel: nat)
    requires !Succeeded(server(w.calls, AttachBearer(cfg, GetStoredToken(w.storage))))
    requires var reply := server(w.calls, AttachBearer(cfg, GetStoredToken(w.storage)));
             reply.Answered? ==> reply.response.status != Unauthorized
    ensures var sent := AttachBearer(cfg, GetStoredToken(w.storage));
            Send(base, cfg, w, server, fuel)
              == Run(Rejected(ErrorOf(sent, server(w.calls, sent))), w.(calls := w.calls + 1))
  {
  }

  /** A successful refresh stores `access_token`; with the failed request at hand it is
      replayed, otherwise the original error is still rejected. */
  lemma RefreshSuccessStoresToken(base: Option<string>, err: HttpError, w: World, server: Server, fuel: nat)
    requires IsUnauthorized(err) && fuel > 0
    requires Send(base, RefreshConfig(base), w, server, fuel - 1).outcome.Resolved?
    ensures var refresh := Send(base, RefreshConfig(base), w, server, fuel - 1);
            var t := refresh.outcome.response.body.accessToken;
            var w2 := refresh.world.(storage := StoreToken(refresh.world.storage, t));
            && GetStoredToken(w2.storage) == Some(t)
            && (err.config.Some? ==>
                  OnRejected(base, err, w, server, fuel) == Send(base, ReplayConfig(err.config.value, t), w2, server, fuel - 1))
            && (err.config.None? ==> OnRejected(base, err, w, server, fuel) == Run(Rejected(err), w2))
  {
  }

  /** A failed refresh removes the stored token, redirects, and still rejects the
      original error; the reloaded page then starts anonymous and unverified. */
  lemma RefreshFailureSignsOut(base: Option<string>, err: HttpError, w: World, server: Server, fuel: nat)
    requires IsUnauthorized(err) && fuel > 0
    requires Send(base, RefreshConfig(base), w, server, fuel - 1).outcome.Rejected?
    ensures var r := OnRejected(base, err, w, server, fuel);
            && r.outcome == Rejected(err)
            && r.world.redirected
            && JwtKey !in r.world.storage
            && AuthContext.Init(r.world.storage).auth == AuthContext.Auth(None, false)
  {
  }

  /** The replay reaches the server carrying the refreshed token: the interceptor,
      reading the slot just written, leaves the replayed request as the handler built it. */
  lemma ReplaySentWithNewToken(c: Config, t: string, st: Storage)
    requires GetStoredToken(st) == Some(t)
    ensures AttachBearer(ReplayConfig(c, t), GetStoredToken(st)) == ReplayConfig(c, t)
  {
    if Truthy(Some(t)) {
      var r := ReplayConfig(c, t);
      assert HeadersOrEmpty(r.headers)[Authorization := Bearer(t)] == r.headers.value;
    }
  }

  /** A call that settles with some fuel settles the same way with more: the fuel
      only bounds how deep the model looks, so a settled outcome is the program's. */
  lemma {:induction false} SendFuelMonotone(
    base: Option<string>, cfg: Config, w: World, server: Server, fuel: nat, more: nat)
    requires fuel <= more
    requires Send(base, cfg, w, server, fuel).outcome != Exhausted
    ensures Send(base, cfg, w, server, more) == Send(base, cfg, w, server, fuel)
    decreases fuel, 1
  {
    var sent := AttachBearer(cfg, GetStoredToken(w.storage));
    var reply := server(w.calls, sent);
    if !Succeeded(reply) {
      OnRejectedFuelMonotone(base, ErrorOf(sent, reply), w.(calls := w.calls + 1), server, fuel, more);
    }
  }

  lemma {:induction false} OnRejectedFuelMonotone(
    base: Option<string>, err: HttpError, w: World, server: Server, fuel: nat, more: nat)
    requires fuel <= more
    requires OnRejected(base, err, w, server, fuel).outcome != Exhausted
    ensures OnRejected(base, err, w, server, more) == OnRejected(base, err, w, server, fuel)
    decreases fuel, 0
  {
    if IsUnauthorized(err) {
      var refresh := Send(base, RefreshConfig(base), w, server, fuel - 1);
      SendFuelMonotone(base, RefreshConfig(base), w, server, fuel - 1, more - 1);
      AfterRefreshFuelMonotone(base, err, refresh, server, fuel - 1, more - 1);
    }
  }

  lemma {:induction false} AfterRefreshFuelMonotone(
    base: Option<string>, err: HttpError, refresh: Run, server: Server, fuel: nat, more: nat)
    requires fuel <= more
    requires AfterRefresh(base, err, refresh, server, fuel).outcome != Exhausted
    ensures AfterRefresh(base, err, refresh, server, more) == AfterRefresh(base, err, refresh, server, fuel)
    decreases fuel, 2
  {
    if refresh.outcome.Resolved? && err.config.Some? {
      var t := refresh.outcome.response.body.accessToken;
      var w2 := refresh.world.(storage := StoreToken(refresh.world.storage, t));
      SendFuelMonotone(base, ReplayConfig(err.config.value, t), w2, server, fuel, more);
    }
  }

  /** A backend that answers 401 to everything, including `/refresh`. */
  ghost predicate AlwaysUnauthorized(server: Server) {
    forall n, c :: server(n, c).Answered? && server(n, c).response.status == Unauthorized
  }

  /** As written, a backend that answers 401 to `/refresh` sends the handler into
      another refresh, and so on: no amount of fuel lets the call settle, and the
      catch that would clear storage is never reached. */
  lemma {:induction false} PersistentUnauthorizedNeverSettles(
    base: Option<string>, cfg: Config, w: World, server: Server, fuel: nat)
    requires AlwaysUnauthorized(server)
    ensures Send(base, cfg, w, server, fuel).outcome == Exhausted
    decreases fuel
  {
    var (sent, reply) := Exchange(cfg, w, server);
    assert reply == server(w.calls, sent);
    var w1 := w.(calls := w.calls + 1);
    assert IsUnauthorized(ErrorOf(sent, reply));
    if fuel > 0 {
      var refresh := Send(base, RefreshConfig(base), w1, server, fuel - 1);
      PersistentUnauthorizedNeverSettles(base, RefreshConfig(base), w1, server, fuel - 1);
      assert AfterRefresh(base, ErrorOf(sent, reply), refresh, server, fuel - 1) == refresh;
    }
  }

  /** The guarded handler: the refresh call is a single exchange whose own 401 is not
      handled again, the replay is marked as retried, and a 401 on the replay ends
      the session like a failed refresh. */
  function SendGuarded(base: Option<string>, cfg: Config, w: World, server: Server, retried: bool): (r: Run)
    ensures var sent := AttachBearer(cfg, GetStoredToken(w.storage));
            Succeeded(server(w.calls, sent)) ==>
              r == Run(Resolved(server(w.calls, sent).response), w.(calls := w.calls + 1))
    ensures r.outcome.Resolved? ==> IsSuccess(r.outcome.response.status)
    ensures r.outcome.Resolved? || r.outcome.Rejected?
    ensures w.calls + 1 <= r.world.calls <= w.calls + (if retried then 1 else 3)
    ensures AgreeOffJwt(r.world.storage, w.storage)
    ensures w.redirected ==> r.world.redirected
    ensures !w.redirected && r.world.redirected ==> r.outcome.Rejected? && JwtKey !in r.world.storage
    decreases if retried then 0 else 1, 1
  {
    var (sent, reply) := Exchange(cfg, w, server);
    var w1 := w.(calls := w.calls + 1);
    if Succeeded(reply) then Run(Resolved(reply.response), w1)
    else OnRejectedGuarded(base, ErrorOf(sent, reply), w1, server, retried)
  }

  function OnRejectedGuarded(base: Option<string>, err: HttpError, w: World, server: Server, retried: bool): (r: Run)
    ensures r.outcome.Resolved? ==> IsSuccess(r.outcome.response.status)
    ensures r.outcome.Resolved? || r.outcome.Rejected?
    ensures w.calls <= r.world.calls <= w.calls + (if retried then 0 else 2)
    ensures !IsUnauthorized(err) ==> r == Run(Rejected(err), w)
    ensures AgreeOffJwt(r.world.storage, w.storage)
    ensures w.redirected ==> r.world.redirected
    ensures !w.redirected && r.world.redirected ==> r.outcome.Rejected? && JwtKey !in r.world.storage
    decreases if retried then 0 else 1, 0
  {
    if !IsUnauthorized(err) then Run(Rejected(err), w)
    else if retried then Run(Rejected(err), SignOut(w))
    else
      var (_, reply) := Exchange(RefreshConfig(base), w, server);
      var w1 := w.(calls := w.calls + 1);
      if !Succeeded(reply) then Run(Rejected(err), SignOut(w1))
      else
        var t := reply.response.body.accessToken;
        var w2 := w1.(storage := StoreToken(w1.storage, t));
        match err.config
        case Some(c) =>
          var replay := SendGuarded(base, ReplayConfig(c, t), w2, server, true);
          if replay.outcome.Rejected? && IsUnauthorized(replay.outcome.error) then Run(Rejected(err), replay.world)
          else replay
        case None => Run(Rejected(err), w2)
  }

  /** With the guard, a 401 followed by a 2xx refresh granting `t` and a 2xx replay
      delivers the replay's response, with `t` stored, after two further calls. */
  lemma GuardedRefreshAndReplay(base: Option<string>, err: HttpError, w: World, server: Server)
    requires IsUnauthorized(err) && err.config.Some?
    requires Succeeded(Exchange(RefreshConfig(base), w, server).1)
    ensures var t := Exchange(RefreshConfig(base), w, server).1.response.body.accessToken;
            var w2 := World(StoreToken(w.storage, t), w.redirected, w.calls + 1);
            var replay := server(w2.calls, AttachBearer(ReplayConfig(err.config.value, t), GetStoredToken(w2.storage)));
            var r := OnRejectedGuarded(base, err, w, server, false);
            Succeeded(replay) ==>
              && r.outcome == Resolved(replay.response)
              && GetStoredToken(r.world.storage) == Some(t)
              && r.world.calls == w.calls + 2
              && r.world.redirected == w.redirected
  {
  }

  /** With the guard, a 401 on the refresh or on the replay ends the session: the jwt
      slot is removed, the page is redirected, and the caller receives the original
      401. */
  lemma GuardedSecondUnauthorizedSignsOut(base: Option<string>, err: HttpError, w: World, server: Server)
    requires IsUnauthorized(err)
    ensures var refresh := Exchange(RefreshConfig(base), w, server).1;
            var r := OnRejectedGuarded(base, err, w, server, false);
            !Succeeded(refresh) ==>
              r.outcome == Rejected(err) && r.world.redirected && JwtKey !in r.world.storage
    ensures var refresh := Exchange(RefreshConfig(base), w, server).1;
            var r := OnRejectedGuarded(base, err, w, server, false);
            Succeeded(refresh) && err.config.Some? ==>
              var t := refresh.response.body.accessToken;
              var w2 := World(StoreToken(w.storage, t), w.redirected, w.calls + 1);
              var replay := server(w2.calls, AttachBearer(ReplayConfig(err.config.value, t), GetStoredToken(w2.storage)));
              replay.Answered? && replay.response.status == Unauthorized ==>
                r.outcome == Rejected(err) && r.world.redirected && JwtKey !in r.world.storage
  {
  }

  /** With the guard, the backend that answers 401 to everything costs two calls (the
      request and one refresh) and leaves the session signed out. */
  lemma PersistentUnauthorizedSignsOut(base: Option<string>, cfg: Config, w: World, server: Server)
    requires AlwaysUnauthorized(server)
    ensures var r := SendGuarded(base, cfg, w, server, false);
            && r.outcome.Rejected? && IsUnauthorized(r.outcome.error)
            && r.world.calls == w.calls + 2
            && r.world.redirected && JwtKey !in r.world.storage
  {
    var (sent, reply) := Exchange(cfg, w, server);
    assert reply == server(w.calls, sent);
    var w1 := w.(calls := w.calls + 1);
    var (_, refreshReply) := Exchange(RefreshConfig(base), w1, server);
    assert refreshReply == server(w1.calls, AttachBearer(RefreshConfig(base), GetStoredToken(w1.storage)));
  }

  /** A backend that refuses the first call with 401, grants `"xyz"` on the second
      (the refresh) and answers every later call with `ok`. */
  function RefreshingServer(ok: Response): Server {
    (n: nat, c: Config) =>
      if n == 0 then Answered(Response(Unauthorized, "Unauthorized", Body("", "")))
      else if n == 1 then Answered(Response(200, "OK", Body("xyz", "")))
      else Answered(ok)
  }

  /** A 401 answered by a successful refresh: the caller receives the replay's
      response, storage holds the new token, and the session in memory still holds
      the old one, since the handler never touches it. */
  lemma RefreshAndReplayScenario(base: Option<string>, cfg: Config, c: AuthContext.Client, ok: Response)
    requires IsSuccess(ok.status)
    requires c.auth.token == Some("abc") && AuthContext.InSync(c)
    ensures var r := Send(base, cfg, World(c.storage, false, 0), RefreshingServer(ok), 1);
            && r.outcome == Resolved(ok)
            && GetStoredToken(r.world.storage) == Some("xyz")
            && !r.world.redirected && r.world.calls == 3
            && !AuthContext.InSync(c.(storage := r.world.storage))
  {
    var server := RefreshingServer(ok);
    var w := World(c.storage, false, 0);
    var sent := AttachBearer(cfg, GetStoredToken(w.storage));
    assert server(0, sent).response.status == Unauthorized;
    var w1 := w.(calls := 1);
    var refresh := Send(base, RefreshConfig(base), w1, server, 0);
    assert server(1, AttachBearer(RefreshConfig(base), GetStoredToken(w1.storage))).response.body.accessToken == "xyz";
    assert refresh.outcome.Resolved? && refresh.outcome.response.body.accessToken == "xyz";
    var w2 := refresh.world.(storage := StoreToken(refresh.world.storage, "xyz"));
    assert server(2, AttachBearer(ReplayConfig(sent, "xyz"), GetStoredToken(w2.storage))) == Answered(ok);
  }
}

=== FILE: login_page.dfy ===
/** The `Login` page's submit handler: post the credentials as a form to `/token`
    on the `api` instance and, on a 2xx answer, hand the granted token to `login`.
    The `api` instance has a request interceptor but no response interceptor, so
    every failure lands in the handler's catch. */
module LoginPage {
  import opened Optional
  import opened Credentials
  import opened Requests
  import opened BaseUrl
  import opened AuthContext
  import App

  const TokenPath: string := "/token"
  const FormType: string := "application/x-www-form-urlencoded"
  const InvalidCredentials: string := "Invalid credentials"

  /** `URLSearchParams.get(name)`: the value of the first field with that name. */
  function FormValue(fields: seq<(string, string)>, name: string): (r: Option<string>)
    ensures r.None? <==> forall i :: 0 <= i < |fields| ==> fields[i].0 != name
    ensures r.Some? ==> exists i :: 0 <= i < |fields| && fields[i] == (name, r.value)
  {
    if |fields| == 0 then None
    else if fields[0].0 == name then Some(fields[0].1)
    else
      var r := FormValue(fields[1..], name);
      assert forall i :: 1 <= i < |fields| ==> fields[i] == fields[1..][i - 1];
      r
  }

  /** The form body, `username` then `password`: the server reads back exactly the
      credentials typed, under exactly two names. */
  function LoginForm(user: string, pwd: string): (f: seq<(string, string)>)
    ensures FormValue(f, "username") == Some(user)
    ensures FormValue(f, "password") == Some(pwd)
    ensures forall name :: name != "username" && name != "password" ==> FormValue(f, name) == None
    ensures |f| == 2 && f[0].0 == "username" && f[1].0 == "password"
  {
    [("username", user), ("password", pwd)]
  }

  /** The login request as the server receives it, after the `api` interceptor ran
      with the token stored at that moment. */
  function LoginRequest(user: string, pwd: string, env: Env, stored: Option<string>): (r: Config)
    ensures r.verb == "POST" && r.url == TokenPath && r.baseURL == Some(BuildBaseURL(env))
    ensures HeaderOf(r, ContentType) == Some(FormType)
    ensures r.body == Form(LoginForm(user, pwd))
    ensures Truthy(stored) ==> HeaderOf(r, Authorization) == Some(Bearer(stored.value))
    ensures !Truthy(stored) ==> HeaderOf(r, Authorization) == None
  {
    var form := Form(LoginForm(user, pwd));
    var cfg := Config("POST", Some(BuildBaseURL(env)), TokenPath, Some(map[ContentType := FormType]), form);
    assert ContentType != Authorization && HeaderOf(cfg, Authorization) == None;
    AttachBearer(cfg, stored)
  }

  /** The `api` instance's interceptor also runs on the login call: a token left in
      storage from an earlier session is sent along with the credentials. */
  lemma LoginRequestCarriesStoredBearer(user: string, pwd: string, env: Env, c: Client)
    ensures Truthy(GetStoredToken(c.storage)) ==>
              HeaderOf(LoginRequest(user, pwd, env, GetStoredToken(c.storage)), Authorization) == Some(Bearer(c.storage[JwtKey]))
    ensures !Truthy(GetStoredToken(c.storage)) ==>
              HeaderOf(LoginRequest(user, pwd, env, GetStoredToken(c.storage)), Authorization) == None
  {
  }

  /** The backend as seen by the `api` instance. */
  type LoginServer = Config -> Reply

  /** The page's state: the session it writes into and the error line it shows. */
  datatype Page = Page(client: Client, error: string)

  /** `handleSubmit`: on a 2xx answer the granted access token goes to `login`; otherwise the
      session is left alone and the error line reads "Invalid credentials". A
      success does not clear an earlier error line. */
  function Submit(p: Page, user: string, pwd: string, env: Env, server: LoginServer): (r: Page)
    ensures var reply := server(LoginRequest(user, pwd, env, GetStoredToken(p.client.storage)));
            && (Succeeded(reply) ==>
                  && r.client.auth == Auth(Some(reply.response.body.accessToken), false)
                  && GetStoredToken(r.client.storage) == Some(reply.response.body.accessToken)
                  && AgreeOffJwt(r.client.storage, p.client.storage)
                  && r.error == p.error)
            && (!Succeeded(reply) ==> r.client == p.client && r.error == InvalidCredentials)
  {
    var reply := server(LoginRequest(user, pwd, env, GetStoredToken(p.client.storage)));
    if Succeeded(reply) then Page(Login(p.client, reply.response.body.accessToken), p.error)
    else Page(p.client, InvalidCredentials)
  }

  /** A login never verifies by itself: the session is pending (or anonymous, for an
      empty token) until the mount-time check has run. */
  lemma SubmitNeverVerifies(p: Page, user: string, pwd: string, env: Env, server: LoginServer)
    requires App.Consistent(p.client.auth)
    ensures Succeeded(server(LoginRequest(user, pwd, env, GetStoredToken(p.client.storage)))) ==>
              PhaseOf(Submit(p, user, pwd, env, server).client.auth) != Verified
    ensures App.Consistent(Submit(p, user, pwd, env, server).client.auth)
    ensures InSync(p.client) ==> InSync(Submit(p, user, pwd, env, server).client)
  {
  }

  /** Login followed by the verification effect: a token the backend accepts opens
      the protected view; one it refuses is wiped; an empty token is never probed
      and the login view stays. */
  lemma SubmitThenVerify(p: Page, user: string, pwd: string, env: Env, server: LoginServer, api: App.FetchServer)
    requires Succeeded(server(LoginRequest(user, pwd, env, GetStoredToken(p.client.storage))))
    ensures var t := server(LoginRequest(user, pwd, env, GetStoredToken(p.client.storage))).response.body.accessToken;
            var c := Submit(p, user, pwd, env, server).client;
            var after := App.Verify(c, env, api);
            && (t != "" && App.FetchOk(api(App.VerificationProbe(c.auth, env).value)) ==>
                  App.Render(after.auth) == App.ProtectedView && GetStoredToken(after.storage) == Some(t))
            && (t != "" && !App.FetchOk(api(App.VerificationProbe(c.auth, env).value)) ==>
                  PhaseOf(after.auth) == Anonymous && GetStoredToken(after.storage) == None)
            && (t == "" ==> after == c && App.Render(after.auth) == App.LoginView)
  {
    var req := LoginRequest(user, pwd, env, GetStoredToken(p.client.storage));
    var t := server(req).response.body.accessToken;
    var c := Submit(p, user, pwd, env, server).client;
    assert c == Login(p.client, t);
    assert c.auth == Auth(Some(t), false);
  }
}

=== FILE: optional.dfy ===
/** Values that may be missing and operations that may fail: a storage slot, an
    environment variable, an HTTP response. */
module Optional {

  /** A JavaScript value that may be `null` or `undefined` (`None`). */
  datatype Option<T> = None | Some(value: T)

  /** JavaScript's `o ?? fallback`: the value when there is one. */
  function ValueOr<T>(o: Option<T>, fallback: T): T {
    if o.None? then fallback else o.value
  }

  /** A call that returns `Success` or throws `Failure`. */
  datatype Result<R, E> = Success(value: R) | Failure(error: E)
}

=== FILE: requests.dfy ===
/** Axios request and response records, and the request interceptor that both
    axios instances (`http` and `api`) install to attach the stored token. */
module Requests {
  import opened Optional
  import opened Credentials

  type Headers = map<string, string>

  const Authorization: string := "Authorization"
  const ContentType: string := "Content-Type"

  /** A request body: none, a URL-encoded form (ordered name/value pairs), or JSON text. */
  datatype Payload = NoBody | Form(fields: seq<(string, string)>) | Json(text: string)

  /** The request configuration axios passes through its interceptors. `headers`
      may be missing, which the interceptors handle. */
  datatype Config = Config(verb: string, baseURL: Option<string>, url: string,
                           headers: Option<Headers>, body: Payload)

  /** The fields of a JSON response body the client reads. */
  datatype Body = Body(accessToken: string, message: string)

  datatype Response = Response(status: nat, statusText: string, body: Body)

  /** What the server does with one request: answers with a status, or the
      request fails without any response (network error, CORS, abort). */
  datatype Reply = Answered(response: Response) | NoResponse

  /** Both axios's default `validateStatus` and `fetch`'s `res.ok`: a 2xx status. */
  predicate IsSuccess(status: nat) {
    200 <= status < 300
  }

  const Unauthorized: nat := 401

  /** The call resolves: a response with a 2xx status. */
  predicate Succeeded(reply: Reply) {
    reply.Answered? && IsSuccess(reply.response.status)
  }

  /** The value of an `Authorization` header carrying token `t`. */
  function Bearer(t: string): (r: string)
    ensures |r| == 7 + |t| && r[7..] == t
  {
    "Bearer " + t
  }

  /** The value of header `k` of a request, absent when there are no headers. */
  function HeaderOf(cfg: Config, k: string): Option<string> {
    if cfg.headers.Some? then Lookup(cfg.headers.value, k) else None
  }

  /** The request's headers, or a fresh empty set when it has none. */
  function HeadersOrEmpty(h: Option<Headers>): (r: Headers)
    ensures h.Some? ==> r == h.value
    ensures h.None? ==> r == map[]
  {
    ValueOr(h, map[])
  }

  /** Setting header `k` to `v`, creating the headers when missing. */
  function SetHeader(cfg: Config, k: string, v: string): (r: Config)
    ensures HeaderOf(r, k) == Some(v)
    ensures forall j :: j != k ==> HeaderOf(r, j) == HeaderOf(cfg, j)
    ensures r.verb == cfg.verb && r.baseURL == cfg.baseURL
    ensures r.url == cfg.url && r.body == cfg.body
  {
    cfg.(headers := Some(HeadersOrEmpty(cfg.headers)[k := v]))
  }

  /** The request interceptor: read the stored token at call time; when it is
      truthy set `Authorization: Bearer <token>`, otherwise leave the request as is
      (no header is added, an existing one is kept). */
  function AttachBearer(cfg: Config, stored: Option<string>): (r: Config)
    ensures Truthy(stored) ==> HeaderOf(r, Authorization) == Some(Bearer(stored.value))
    ensures Truthy(stored) ==> forall k :: k != Authorization ==> HeaderOf(r, k) == HeaderOf(cfg, k)
    ensures !Truthy(stored) ==> r == cfg
    ensures r.verb == cfg.verb && r.baseURL == cfg.baseURL
    ensures r.url == cfg.url && r.body == cfg.body
  {
    if Truthy(stored) then SetHeader(cfg, Authorization, Bearer(stored.value)) else cfg
  }

  /** Attaching is idempotent: running the interceptor on its own output for the same
      stored token changes nothing, so a request that passes through twice (as the
      401 replay does) is sent with the same headers. */
  lemma AttachBearerIdempotent(cfg: Config, stored: Option<string>)
    ensures AttachBearer(AttachBearer(cfg, stored), stored) == AttachBearer(cfg, stored)
  {
    if Truthy(stored) {
      var once := AttachBearer(cfg, stored);
      assert HeadersOrEmpty(once.headers)[Authorization := Bearer(stored.value)] == once.headers.value;
    }
  }
}
